=== FILE: README.md ===
# Flood fill and hex colour decoding, modelled in Dafny

This project models the core of a colouring-book web app: the flood-fill
engine `floodFill` and the hex colour decoder `hexToRgba` of
`src/lib/canvas-utils.ts`. The user taps a region of a picture. The app
paints the 4-connected area of "similar enough" colour around the tapped
pixel with the chosen palette colour.

The model works on an explicit row-major RGBA buffer (`seq<int>`, four
channels per pixel, each a byte) in place of the canvas's `ImageData`:

- `colors.dfy` (`Colors`): the `Color` record and the per-channel tolerance
  test `|c - target| <= tolerance` on each of R, G, B and A.
- `hex_codec.dfy` (`HexCodec`): `hexToRgba`, which removes the first `#` and
  reads two-digit hex pairs. Its partner is an upper-case encoder
  `RgbaToHex`, and round-trip lemmas connect the two in both directions.
- `buffer.dfy` (`Buffer`): pixel offsets `(y * width + x) * 4`, reading and
  writing one pixel, and the count of in-bounds coordinates.
- `connectivity.dfy` (`Connectivity`): 4-neighbours, walks, and the
  connected component of a seed. These are the reference notions the
  traversal is proved against.
- `traversal.dfy` (`Traversal`): the invariants of the work-stack loop, and
  how popping one coordinate (accepted or discarded) keeps them.
- `flood_fill.dfy` (`FloodFill`): the engine itself. It is a `while` loop
  over an explicit stack (a `seq` of coordinate pairs) and a visited set (a
  `set` of pairs standing in for the `"x,y"` string keys). Its result is
  specified by `FillRegion`, a definition that does not mention any
  traversal. `FillRegion` is empty after the early exit. Otherwise it is the
  4-connected component of the seed among the pixels whose original colour
  lies within tolerance of the seed's.
- `fill_properties.dfy` (`FillProperties`): what every result of the engine
  satisfies.

## Edge behaviour of the code

- A malformed colour has no error path. `hexToRgba` removes the first `#`
  wherever it is and reads the digit pairs at positions 0, 2 and 4, and at 6
  only when `hex.length === 8`. So `D3#2F2F` and `D32F2F0` both decode to
  (211, 47, 47, 255). `hex.length` counts UTF-16 code units, and a
  character outside the Basic Multilingual Plane counts as two (`Utf16Length`).
  So six digits followed by a seventh such character count as eight, and
  the code reads a NaN alpha. Six digits followed by eight characters of
  which one lies outside that plane count as nine, and the colour decodes
  opaque. The model takes every string whose first six remaining characters
  are hex digits (`Decodable`), plus the last two when the alpha pair is
  read, except the NaN-alpha case above. Other strings are left out (see
  below).
- The target colour is read at the raw offset `(y * width + x) * 4` before
  any bounds check. For an out-of-range seed that offset may lie outside the
  buffer (giving `undefined`, so every comparison is false) or alias another
  pixel. Either the early exit fires on the aliased colour, or the seed is
  pushed and discarded on the first pop; either way the buffer comes back
  unchanged. `ReadTarget` models that read.
- Any tolerance is accepted. A negative tolerance matches nothing, so
  nothing is written.

## Model

| member | source | states |
|---|---|---|
| HexCodec.HexToRgba | src/lib/canvas-utils.ts:102-113 | every decoded channel is a byte; unless exactly eight characters remain after the first `#` is removed, the colour is fully opaque (alpha 255) |
| HexCodec.StripHash | src/lib/canvas-utils.ts:104 | `replace('#', '')` leaves a string without `#` alone, and otherwise removes exactly the first `#`, keeping what precedes and follows it |
| HexCodec.WellFormedHex | src/lib/canvas-utils.ts:104 | on a canonical literal (optional `#`, six or eight hex digits), removing the first `#` is removing the optional leading `#`, and the literal decodes |
| HexCodec.Utf16Length | src/lib/canvas-utils.ts:110 | `hex.length` in UTF-16 code units: at least one and at most two per character |
| HexCodec.Utf16LengthIsCount | src/lib/canvas-utils.ts:110 | the code-unit length equals the character count exactly when every character lies in the Basic Multilingual Plane |
| HexCodec.LengthTest | src/lib/canvas-utils.ts:110 | after six hex digits, `hex.length === 8` holds exactly when eight characters remain all in the Basic Multilingual Plane, or seven whose last lies outside it |
| HexCodec.AlphaFromLength | src/lib/canvas-utils.ts:110 | alpha is 255 unless the code-unit length is 8; when it is 8 there are eight characters and alpha is the fourth pair's byte |
| HexCodec.PairValue | src/lib/canvas-utils.ts:107-110 | `parseInt` of a two-digit substring in base 16 is a byte |
| HexCodec.OnlyLeadingPairsRead | src/lib/canvas-utils.ts:107-110 | unless the code-unit length is exactly eight, only the first six characters are read: the string decodes like its first six digits |
| HexCodec.StrayHashExample | src/lib/canvas-utils.ts:104 | `D3#2F2F` decodes to (211, 47, 47, 255): a `#` in the middle is removed |
| HexCodec.SupplementarySeventhExcluded | src/lib/canvas-utils.ts:110 | `D32F2F` followed by one emoji is not decodable in the model: `hex.length` counts the emoji as two units, so the code would read a NaN alpha |
| HexCodec.SupplementaryAfterSixLength | src/lib/canvas-utils.ts:110 | `D32F2F0` followed by one emoji is nine UTF-16 code units long, so the length test fails |
| HexCodec.SupplementaryAfterSixExample | src/lib/canvas-utils.ts:107-110 | `D32F2F0` followed by one emoji is decodable and decodes opaque to (211, 47, 47, 255) from its first six digits |
| HexCodec.ExtraDigitExample | src/lib/canvas-utils.ts:110 | `D32F2F0` decodes to (211, 47, 47, 255): a seventh digit is ignored and the colour is opaque |
| HexCodec.DigitValue | src/lib/canvas-utils.ts:107-110 | a hex digit of either case has a value below 16, below 10 exactly for decimal digits |
| HexCodec.DecodeEncode | src/lib/canvas-utils.ts:107-110 | decoding an encoded colour gives the colour back: R, G, B from the first three pairs, alpha from the fourth; six digits only round-trip opaque colours |
| HexCodec.EncodeDecode | src/lib/canvas-utils.ts:107-110 | re-encoding a decoded literal gives back the same digits in upper case and the same digit count, so every digit pair is read |
| HexCodec.HashIsOptional | src/lib/canvas-utils.ts:104-110 | a literal decodes identically with or without its leading `#` |
| HexCodec.DefaultColorExample | src/components/ColoringCanvas.tsx:19 | the default palette colour `#D32F2F` (and `D32F2F`) decodes to (211, 47, 47, 255) |
| HexCodec.TranslucentExample | src/lib/canvas-utils.ts:110 | `#00796B80` decodes to (0, 121, 107, 128), alpha from the fourth pair |
| Colors.Similar | src/lib/canvas-utils.ts:74-77 | the four-channel `Math.abs` test can hold only with a tolerance of at least 0, and a colour passes it against itself exactly then |
| Colors.SimilarSymmetric | src/lib/canvas-utils.ts:42-46 | the per-channel tolerance test does not depend on argument order, so the early-exit test and the traversal test agree |
| Buffer.InBounds | src/lib/canvas-utils.ts:60-61 | an in-bounds coordinate has a row-major index in `0 .. width * height - 1` |
| Buffer.Offset | src/lib/canvas-utils.ts:67 | the index `(y * width + x) * 4` is a multiple of four, and not negative for non-negative coordinates |
| Buffer.OffsetInRange | src/lib/canvas-utils.ts:67-71 | an in-bounds pixel's four channels at `(y * width + x) * 4` lie inside the buffer: no traversal read or write is out of range |
| Buffer.OffsetsApart | src/lib/canvas-utils.ts:67 | distinct in-bounds pixels own disjoint groups of four channels |
| Buffer.PixelAt | src/lib/canvas-utils.ts:67-71 | a pixel's colour is the four consecutive channels starting at `(y * width + x) * 4`, all inside the buffer, and each a byte in a valid buffer |
| Buffer.SetPixel | src/lib/canvas-utils.ts:80-83 | after the four stores the pixel has exactly the fill colour, every other pixel is unchanged, and channels stay bytes |
| Buffer.GridSize | src/lib/canvas-utils.ts:59-62 | there are exactly `width * height` in-bounds coordinates, the bound on the visited set |
| Connectivity.Neighbours | src/lib/canvas-utils.ts:88-91 | the four pushed coordinates are exactly the 4-neighbours of the accepted pixel |
| FloodFill.ReadTarget | src/lib/canvas-utils.ts:26-32 | for an in-bounds seed the target is the seed pixel's colour |
| FloodFill.MatchesTarget | src/lib/canvas-utils.ts:73-78 | an `undefined` (NaN) target matches nothing; a match needs a tolerance of at least 0; a pixel of the target's own colour matches exactly then |
| FloodFill.AlreadyFilled | src/lib/canvas-utils.ts:42-49 | the early exit needs a real target and a tolerance of at least 0; a target already in the fill colour exits exactly then |
| FloodFill.FloodFill | src/lib/canvas-utils.ts:5-97 | the result keeps channels as bytes; it paints exactly `FillRegion` in the fill colour and leaves every other pixel as it was; an out-of-range seed or the early exit leaves the buffer unchanged; the accepted pixels are distinct, are exactly the region, and number at most `width * height`, which makes the loop terminate |
| FloodFill.Fill | src/lib/canvas-utils.ts:41-93 | with the colour already decoded: the early exit and the work-stack loop paint exactly `FillRegion`, leave every other pixel as it was, keep channels as bytes, and accept each region pixel exactly once, at most `width * height` in all |
| Traversal.StartStep | src/lib/canvas-utils.ts:51-53 | the stack holding only the seed, an empty visited set and the untouched buffer satisfy every loop invariant |
| FloodFill.FinishedFill | src/lib/canvas-utils.ts:55-93 | when the stack is empty the visited set is the seed's whole matching component (nothing reachable is missed), and the buffer is painted accordingly |
| Traversal.AcceptStep | src/lib/canvas-utils.ts:73-92 | accepting a popped in-bounds, unvisited, matching pixel (paint, mark visited, push four neighbours) keeps every loop invariant |
| Traversal.SkipStep | src/lib/canvas-utils.ts:59-65 | discarding a popped coordinate that is out of bounds, visited, or not matching (a boundary pixel, not marked visited) keeps every loop invariant |
| Traversal.DoneIsComponent | src/lib/canvas-utils.ts:55 | an empty stack with the frontier invariant means the visited set equals the seed's connected component |
| FillProperties.RegionPixelMatches | src/lib/canvas-utils.ts:42-49 | a pixel of the fill region originally matched the seed colour, and cannot already have had the fill colour without triggering the early exit |
| FillProperties.RecolouredIsRegion | src/lib/canvas-utils.ts:73-92 | a pixel changes colour if and only if it is in the fill region |
| FillProperties.OnlyMatchingPixelsWritten | src/lib/canvas-utils.ts:73-84 | a changed pixel originally matched the seed colour on every channel and now holds exactly the fill colour; a non-matching pixel keeps its value |
| FillProperties.RecolouredConnectedToSeed | src/lib/canvas-utils.ts:88-91 | every recoloured pixel is joined to the seed by a 4-connected walk through recoloured pixels |
| FillProperties.MatchingWalkIsFilled | src/lib/canvas-utils.ts:55-93 | unless the early exit fires, every pixel on a walk from the seed through originally matching pixels ends up in the fill colour |
| FillProperties.WrittenAlpha | src/lib/canvas-utils.ts:39 | unless what remains after the first `#` is removed is eight UTF-16 code units long (in particular for a six-digit literal), every written pixel gets alpha 255; otherwise it gets the fourth pair |
| FillProperties.RefillChangesNothing | src/lib/canvas-utils.ts:41-49 | for any tolerance, filling the result again from the same seed with the same colour has nothing to recolour |

## Left out

- The canvas plumbing: `getContext` and its null check, `getImageData` and `putImageData` (src/lib/canvas-utils.ts:12-17, 96). The buffer is a parameter and the result.
- `Math.floor` on the incoming coordinates (src/lib/canvas-utils.ts:22-23): coordinates are integers in the model.
- HexCodec.HexToRgba: alpha is returned as the parsed byte, not as the fraction `byte / 255` the source returns. `floodFill` turns that fraction back into a byte with `Math.floor(a * 255)` (src/lib/canvas-utils.ts:39, 110). The model assumes this floating-point round trip gives the byte back and does not prove it.
- HexCodec.HexToRgba: the precondition `Decodable` leaves out strings the code still decodes, with NaN or partly parsed channels. These are strings shorter than six characters after the `#` is removed (`bad` gives r = 186, g = 13, b = NaN), strings with a non-digit among the pairs that are read, and strings of six digits and then one character outside the Basic Multilingual Plane (`D32F2F` followed by an emoji is eight UTF-16 units, so the code reads a NaN alpha, and the store clamps it to 0). Strings with such a character later on are modelled, by their code-unit length. `parseInt` reads a partial pair such as `1g` as 1, and accepts a sign or leading spaces. NaN channels and partial parsing are not modelled.
- Tolerance and coordinates are integers. Fractional JavaScript numbers are not modelled.
- The clamping of `Uint8ClampedArray` stores: under `Decodable` every stored value is a decoded byte, so clamping never applies. The NaN channels of the strings `Decodable` excludes are where it would.
- `createImageCanvas` and `loadImage` (src/lib/canvas-utils.ts:118-145): DOM and `Promise` wrappers.
- src/components/ColoringCanvas.tsx (React state, image loading, sizing, click-to-canvas scaling, reset, download), src/components/ColorPalette.tsx (swatches) and src/pages/Index.tsx (page layout): user interface, not part of the engine.

=== FILE: buffer.dfy ===
/** The row-major RGBA pixel buffer the flood fill works on: `width * height`
    pixels, four channels each, every channel a byte. */
module Buffer {
  import opened Colors

  /** A pixel coordinate (x, y). It stands for the `"x,y"` string key the
      traversal uses for its visited set. */
  type Point = (int, int)

  predicate ValidBuffer(data: seq<int>, width: nat, height: nat) {
    && |data| == width * height * 4
    && forall i | 0 <= i < |data| :: IsByte(data[i])
  }

  /** The bounds test the traversal applies to each popped coordinate. An
      in-bounds pixel has a row-major index below `width * height`, so an
      empty image has none. */
  predicate InBounds(p: Point, width: nat, height: nat): (ok: bool)
    ensures ok ==> 0 <= p.1 * width + p.0 < width * height
  {
    var inside := 0 <= p.0 < width && 0 <= p.1 < height;
    assert inside ==> 0 <= p.1 * width + p.0 < width * height by {
      if inside {
        MulLeq(p.1, height - 1, width);
        MulStep(height - 1, width);
      }
    }
    inside
  }

  /** The index of a pixel's red channel, `(y * width + x) * 4`. It is
      defined for every coordinate; only in-bounds ones land in the buffer. */
  function Offset(p: Point, width: nat): (i: int)
    ensures i % 4 == 0
    ensures 0 <= p.0 && 0 <= p.1 ==> 0 <= i
  {
    (p.1 * width + p.0) * 4
  }

  /** An in-bounds pixel's four channels lie inside the buffer. */
  lemma OffsetInRange(p: Point, width: nat, height: nat)
    requires InBounds(p, width, height)
    ensures 0 <= Offset(p, width)
    ensures Offset(p, width) + 4 <= width * height * 4
  {
    MulLeq(p.1, height - 1, width);
    assert (height - 1) * width == height * width - width;
  }

  lemma MulLeq(a: nat, b: nat, c: nat)
    requires a <= b
    ensures a * c <= b * c
  {
  }

  lemma MulStep(a: int, c: int)
    ensures (a + 1) * c == a * c + c
    ensures c * (a + 1) == c * a + c
  {
  }

  /** Distinct in-bounds pixels own disjoint groups of four channels. */
  lemma OffsetsApart(p: Point, q: Point, width: nat, height: nat)
    requires InBounds(p, width, height) && InBounds(q, width, height)
    requires p != q
    ensures Offset(p, width) + 4 <= Offset(q, width) || Offset(q, width) + 4 <= Offset(p, width)
  {
    var a := p.1 * width + p.0;
    var b := q.1 * width + q.0;
    assert Offset(p, width) == 4 * a && Offset(q, width) == 4 * b;
    if p.1 < q.1 {
      MulLeq(p.1 + 1, q.1, width);
      MulStep(p.1, width);
      assert a < b;
    } else if q.1 < p.1 {
      MulLeq(q.1 + 1, p.1, width);
      MulStep(q.1, width);
      assert b < a;
    } else {
      assert a != b;
    }
  }

  /** The colour of an in-bounds pixel: the four consecutive channels that
      start at its offset. */
  function PixelAt(data: seq<int>, width: nat, height: nat, p: Point): (c: Color)
    requires |data| == width * height * 4
    requires InBounds(p, width, height)
    ensures 0 <= Offset(p, width) && Offset(p, width) + 4 <= |data|
    ensures data[Offset(p, width)..Offset(p, width) + 4] == [c.r, c.g, c.b, c.a]
    ensures ValidBuffer(data, width, height) ==> ValidColor(c)
  {
    OffsetInRange(p, width, height);
    var i := Offset(p, width);
    Color(data[i], data[i + 1], data[i + 2], data[i + 3])
  }

  /** Overwrites the four channels of one pixel, the four stores
      `data[index] = fillR` ... `data[index + 3] = fillA`. */
  function SetPixel(data: seq<int>, width: nat, height: nat, p: Point, c: Color): (r: seq<int>)
    requires |data| == width * height * 4
    requires InBounds(p, width, height)
    ensures |r| == |data|
    ensures PixelAt(r, width, height, p) == c
    ensures forall q | InBounds(q, width, height) && q != p :: PixelAt(r, width, height, q) == PixelAt(data, width, height, q)
    ensures ValidBuffer(data, width, height) && ValidColor(c) ==> ValidBuffer(r, width, height)
  {
    OffsetInRange(p, width, height);
    var i := Offset(p, width);
    var r := data[i := c.r][i + 1 := c.g][i + 2 := c.b][i + 3 := c.a];
    forall q | InBounds(q, width, height) && q != p
      ensures PixelAt(r, width, height, q) == PixelAt(data, width, height, q)
    {
      OffsetInRange(q, width, height);
      OffsetsApart(p, q, width, height);
    }
    r
  }

  /** Every in-bounds coordinate. */
  ghost function Grid(width: nat, height: nat): (g: set<Point>)
    ensures forall p :: p in g <==> InBounds(p, width, height)
  {
    set x, y | 0 <= x < width && 0 <= y < height :: (x, y)
  }

  /** The in-bounds coordinates of one row. */
  ghost function Row(width: nat, y: int): (g: set<Point>)
    ensures forall p :: p in g <==> 0 <= p.0 < width && p.1 == y
  {
    set x | 0 <= x < width :: (x, y)
  }

  lemma {:induction false} RowSize(width: nat, y: int)
    ensures |Row(width, y)| == width
  {
    if width > 0 {
      RowSize(width - 1, y);
      assert Row(width, y) == Row(width - 1, y) + {(width - 1, y)};
    } else {
      assert Row(width, y) == {};
    }
  }

  /** There are exactly `width * height` in-bounds coordinates: the bound on
      how many pixels one fill can expand. */
  lemma {:induction false} GridSize(width: nat, height: nat)
    ensures |Grid(width, height)| == width * height
  {
    if height > 0 {
      var above := Grid(width, height - 1);
      var last := Row(width, height - 1);
      GridSize(width, height - 1);
      RowSize(width, height - 1);
      assert Grid(width, height) == above + last;
      assert above * last == {};
      assert |above + last| == |above| + |last|;
      MulStep(height - 1, width);
      assert width * height == width * (height - 1) + width;
    } else {
      assert Grid(width, height) == {};
    }
  }
}

=== FILE: colors.dfy ===
/** RGBA colours and the per-channel tolerance test the flood fill uses to
    decide whether two colours are "the same". */
module Colors {

  /** One pixel value: red, green, blue and alpha channels. */
  datatype Color = Color(r: int, g: int, b: int, a: int)

  /** The range of one channel of an 8-bit RGBA pixel buffer. */
  predicate IsByte(v: int) {
    0 <= v <= 255
  }

  predicate ValidColor(c: Color) {
    IsByte(c.r) && IsByte(c.g) && IsByte(c.b) && IsByte(c.a)
  }

  function Abs(v: int): nat {
    if v < 0 then -v else v
  }

  /** Channel-wise similarity: every one of R, G, B and A differs by at most
      `tolerance`. This is not a distance metric on the colour as a whole. */
  predicate Similar(c: Color, d: Color, tolerance: int): (ok: bool)
    ensures ok ==> tolerance >= 0
    ensures c == d ==> (ok <==> tolerance >= 0)
  {
    && Abs(c.r - d.r) <= tolerance
    && Abs(c.g - d.g) <= tolerance
    && Abs(c.b - d.b) <= tolerance
    && Abs(c.a - d.a) <= tolerance
  }

  /** The similarity test does not depend on which colour comes first, so the
      early-exit test (target against fill) and the traversal test (pixel
      against target) agree on the order-free question they ask. */
  lemma SimilarSymmetric(c: Color, d: Color, tolerance: int)
    ensures Similar(c, d, tolerance) <==> Similar(d, c, tolerance)
  {
  }
}

=== FILE: connectivity.dfy ===
/** 4-connectivity on pixel coordinates: adjacency, paths through a set of
    pixels, and the connected component of a seed. These are the reference
    notions the flood fill's traversal is proved against. */
module Connectivity {
  import opened Colors
  import opened Buffer

  /** Two pixels are 4-neighbours: they differ by one step along one axis. */
  predicate Adjacent(p: Point, q: Point) {
    Abs(p.0 - q.0) + Abs(p.1 - q.1) == 1
  }

  /** The four axis neighbours of `p`, in the order the traversal pushes
      them: right, left, down, up. They are exactly the pixels adjacent to `p`. */
  function Neighbours(p: Point): (ns: seq<Point>)
    ensures |ns| == 4
    ensures forall q :: q in ns <==> Adjacent(p, q)
  {
    [(p.0 + 1, p.1), (p.0 - 1, p.1), (p.0, p.1 + 1), (p.0, p.1 - 1)]
  }

  /** A non-empty walk through pixels of `s`, each step to a 4-neighbour. */
  predicate IsPathIn(path: seq<Point>, s: set<Point>) {
    && |path| > 0
    && (forall i | 0 <= i < |path| :: path[i] in s)
    && (forall i | 0 <= i < |path| - 1 :: Adjacent(path[i], path[i + 1]))
  }

  /** `to` can be reached from `from` by a walk inside `s`. */
  ghost predicate ConnectedIn(s: set<Point>, from: Point, to: Point) {
    exists path :: IsPathIn(path, s) && path[0] == from && path[|path| - 1] == to
  }

  /** The pixels of `s` reachable from `seed` inside `s`: empty when the
      seed itself is not in `s`. */
  ghost function Component(s: set<Point>, seed: Point): (c: set<Point>)
    ensures c <= s
    ensures seed !in s ==> c == {}
  {
    set p | p in s && ConnectedIn(s, seed, p)
  }

  /** A walk may be extended by one step to a neighbour in the same set. */
  lemma ExtendPath(path: seq<Point>, s: set<Point>, q: Point)
    requires IsPathIn(path, s) && q in s && Adjacent(path[|path| - 1], q)
    ensures IsPathIn(path + [q], s)
  {
    var ext := path + [q];
    forall i | 0 <= i < |ext| - 1
      ensures Adjacent(ext[i], ext[i + 1])
    {
      if i < |path| - 1 {
        assert ext[i] == path[i] && ext[i + 1] == path[i + 1];
      }
    }
  }

  /** A walk that starts in a set `v` which no step inside `s` can leave
      never leaves `v`. */
  lemma {:induction false} PathStaysInClosed(path: seq<Point>, s: set<Point>, v: set<Point>, n: nat)
    requires IsPathIn(path, s) && path[0] in v
    requires forall p, q | p in v && q in s && Adjacent(p, q) :: q in v
    requires n < |path|
    ensures path[n] in v
  {
    if n > 0 {
      PathStaysInClosed(path, s, v, n - 1);
      assert Adjacent(path[n - 1], path[n]);
    }
  }

  /** Maximality: a set that holds the seed (or the seed is not in `s` at
      all) and is closed under stepping to neighbours in `s` contains the
      whole component of the seed. */
  lemma ComponentInClosed(s: set<Point>, seed: Point, v: set<Point>)
    requires seed in v || seed !in s
    requires forall p, q | p in v && q in s && Adjacent(p, q) :: q in v
    ensures Component(s, seed) <= v
  {
    forall p | p in Component(s, seed)
      ensures p in v
    {
      var path :| IsPathIn(path, s) && path[0] == seed && path[|path| - 1] == p;
      PathStaysInClosed(path, s, v, |path| - 1);
    }
  }

  /** Every member of a component is reached from the seed by a walk that
      stays inside the component itself. */
  lemma ComponentIsConnected(s: set<Point>, seed: Point, p: Point)
    requires p in Component(s, seed)
    ensures exists path :: IsPathIn(path, Component(s, seed)) && path[0] == seed && path[|path| - 1] == p
  {
    var c := Component(s, seed);
    var path :| IsPathIn(path, s) && path[0] == seed && path[|path| - 1] == p;
    forall i | 0 <= i < |path|
      ensures path[i] in c
    {
      var prefix := path[..i + 1];
      assert IsPathIn(prefix, s);
      assert prefix[0] == seed && prefix[|prefix| - 1] == path[i];
    }
    assert IsPathIn(path, c);
  }
}

=== FILE: fill_properties.dfy ===
/** What a finished fill promises about the buffer it hands back, stated of
    any `out` that `FloodFill` may return (its `IsFillOf` postcondition). */
module FillProperties {
  import opened Colors
  import opened HexCodec
  import opened Buffer
  import opened Connectivity
  import opened FloodFill

  /** The in-bounds pixels whose colour differs between the two buffers. */
  ghost function Recoloured(out: seq<int>, data: seq<int>, width: nat, height: nat): (c: set<Point>)
    requires |out| == |data| == width * height * 4
    ensures forall p :: p in c <==> InBounds(p, width, height) && PixelAt(out, width, height, p) != PixelAt(data, width, height, p)
  {
    set p | p in Grid(width, height) && PixelAt(out, width, height, p) != PixelAt(data, width, height, p)
  }

  /** A pixel of the fill region originally matched the seed colour, so it
      cannot already have had the fill colour: that would have made the seed
      colour similar to the fill colour and triggered the early exit. */
  lemma RegionPixelMatches(data: seq<int>, width: nat, height: nat, seed: Point, fill: Color, tolerance: int, p: Point)
    requires |data| == width * height * 4
    requires p in FillRegion(data, width, height, seed, fill, tolerance)
    ensures InBounds(p, width, height)
    ensures MatchesTarget(PixelAt(data, width, height, p), ReadTarget(data, width, height, seed), tolerance)
    ensures PixelAt(data, width, height, p) != fill
  {
    var target := ReadTarget(data, width, height, seed);
    if PixelAt(data, width, height, p) == fill {
      SimilarSymmetric(fill, target.value, tolerance);
      assert false;
    }
  }

  /** Exactly the fill region changes colour: a pixel is recoloured if and
      only if it belongs to the seed's 4-connected matching component. */
  lemma RecolouredIsRegion(out: seq<int>, data: seq<int>, width: nat, height: nat, seed: Point, fill: Color, tolerance: int)
    requires |data| == width * height * 4
    requires IsFillOf(out, data, width, height, seed, fill, tolerance)
    ensures Recoloured(out, data, width, height) == FillRegion(data, width, height, seed, fill, tolerance)
  {
    var region := FillRegion(data, width, height, seed, fill, tolerance);
    forall p | p in region
      ensures p in Recoloured(out, data, width, height)
    {
      RegionPixelMatches(data, width, height, seed, fill, tolerance, p);
    }
  }

  /** Only matching pixels are written, and each written pixel holds exactly
      the fill colour on all four channels; a pixel that did not match the
      seed colour (a boundary pixel) keeps its original value. */
  lemma OnlyMatchingPixelsWritten(out: seq<int>, data: seq<int>, width: nat, height: nat, seed: Point, fill: Color, tolerance: int, p: Point)
    requires |data| == width * height * 4
    requires IsFillOf(out, data, width, height, seed, fill, tolerance)
    requires InBounds(p, width, height)
    ensures PixelAt(out, width, height, p) != PixelAt(data, width, height, p) ==>
              && MatchesTarget(PixelAt(data, width, height, p), ReadTarget(data, width, height, seed), tolerance)
              && PixelAt(out, width, height, p) == fill
    ensures !MatchesTarget(PixelAt(data, width, height, p), ReadTarget(data, width, height, seed), tolerance) ==>
              PixelAt(out, width, height, p) == PixelAt(data, width, height, p)
  {
    if p in FillRegion(data, width, height, seed, fill, tolerance) {
      RegionPixelMatches(data, width, height, seed, fill, tolerance, p);
    }
  }

  /** Every recoloured pixel is joined to the seed by a 4-connected walk
      through recoloured pixels only. */
  lemma RecolouredConnectedToSeed(out: seq<int>, data: seq<int>, width: nat, height: nat, seed: Point, fill: Color, tolerance: int, p: Point)
    requires |data| == width * height * 4
    requires IsFillOf(out, data, width, height, seed, fill, tolerance)
    requires p in Recoloured(out, data, width, height)
    ensures exists path :: IsPathIn(path, Recoloured(out, data, width, height)) && path[0] == seed && path[|path| - 1] == p
  {
    RecolouredIsRegion(out, data, width, height, seed, fill, tolerance);
    var target := ReadTarget(data, width, height, seed);
    ComponentIsConnected(Matching(data, width, height, target, tolerance), seed, p);
  }

  /** Containment: unless the early exit fires, every pixel reached from the
      seed by a walk through pixels that originally matched the seed colour
      ends up in the fill colour. */
  lemma MatchingWalkIsFilled(out: seq<int>, data: seq<int>, width: nat, height: nat, seed: Point, fill: Color, tolerance: int, path: seq<Point>)
    requires |data| == width * height * 4
    requires IsFillOf(out, data, width, height, seed, fill, tolerance)
    requires !AlreadyFilled(ReadTarget(data, width, height, seed), fill, tolerance)
    requires IsPathIn(path, Matching(data, width, height, ReadTarget(data, width, height, seed), tolerance))
    requires path[0] == seed
    ensures forall i | 0 <= i < |path| :: PixelAt(out, width, height, path[i]) == fill
  {
    var s := Matching(data, width, height, ReadTarget(data, width, height, seed), tolerance);
    forall i | 0 <= i < |path|
      ensures PixelAt(out, width, height, path[i]) == fill
    {
      var prefix := path[..i + 1];
      assert IsPathIn(prefix, s) && prefix[0] == seed && prefix[|prefix| - 1] == path[i];
      assert path[i] in Component(s, seed);
    }
  }

  /** A fill colour without exactly eight digits is fully opaque, so every
      written pixel gets alpha 255; an eight-digit one writes the fourth
      digit pair. */
  lemma WrittenAlpha(out: seq<int>, data: seq<int>, width: nat, height: nat, seed: Point, fillColor: string, tolerance: int, p: Point)
    requires |data| == width * height * 4
    requires Decodable(fillColor)
    requires IsFillOf(out, data, width, height, seed, HexToRgba(fillColor), tolerance)
    requires p in Recoloured(out, data, width, height)
    ensures Utf16Length(StripHash(fillColor)) != 8 ==> PixelAt(out, width, height, p).a == 255
    ensures Utf16Length(StripHash(fillColor)) == 8 ==>
              && |StripHash(fillColor)| == 8 && IsHexDigit(StripHash(fillColor)[6]) && IsHexDigit(StripHash(fillColor)[7])
              && PixelAt(out, width, height, p).a == PairValue(StripHash(fillColor), 6)
    ensures WellFormedHex(fillColor) && |Digits(fillColor)| == 6 ==> PixelAt(out, width, height, p).a == 255
  {
    AlphaFromLength(fillColor);
  }

  /** Idempotence: filling the result again from the same seed with the same
      colour has nothing to recolour. */
  lemma RefillChangesNothing(out: seq<int>, data: seq<int>, width: nat, height: nat, seed: Point, fill: Color, tolerance: int)
    requires |data| == width * height * 4
    requires IsFillOf(out, data, width, height, seed, fill, tolerance)
    ensures FillRegion(out, width, height, seed, fill, tolerance) == {}
  {
    var target := ReadTarget(data, width, height, seed);
    if tolerance < 0 {
      // A negative tolerance matches nothing, so the region is empty.
      assert Matching(out, width, height, ReadTarget(out, width, height, seed), tolerance) == {};
    } else if InBounds(seed, width, height) {
      if seed in FillRegion(data, width, height, seed, fill, tolerance) {
        assert ReadTarget(out, width, height, seed) == Some(fill);
      } else if !AlreadyFilled(target, fill, tolerance) {
        assert IsPathIn([seed], Matching(data, width, height, target, tolerance));
        assert false;
      } else {
        assert ReadTarget(out, width, height, seed) == target;
      }
    }
  }
}

=== FILE: flood_fill.dfy ===
/** The flood-fill engine (`floodFill`): an iterative, explicit-stack,
    4-connected fill over a row-major RGBA buffer, with a per-channel
    tolerance. The canvas is replaced by the buffer itself, passed in and
    handed back. */
module FloodFill {
  import opened Colors
  import opened HexCodec
  import opened Buffer
  import opened Connectivity
  import opened Traversal

  datatype Option<T> = None | Some(value: T)

  /** The seed colour, read at the seed's raw offset `(y * width + x) * 4`
      BEFORE any bounds check. An offset outside the buffer reads
      `undefined`, and every comparison against the resulting NaN is false:
      that is `None` here. An out-of-bounds seed whose offset still falls
      inside the buffer reads some other pixel's colour. (Offsets and the
      buffer length are multiples of four, so the fourth channel is inside
      exactly when the first is.) */
  function ReadTarget(data: seq<int>, width: nat, height: nat, seed: Point): (t: Option<Color>)
    requires |data| == width * height * 4
    ensures InBounds(seed, width, height) ==> t == Some(PixelAt(data, width, height, seed))
  {
    var i := Offset(seed, width);
    assert InBounds(seed, width, height) ==> 0 <= i && i + 3 < |data| by {
      if InBounds(seed, width, height) {
        OffsetInRange(seed, width, height);
      }
    }
    if 0 <= i && i + 3 < |data| then Some(Color(data[i], data[i + 1], data[i + 2], data[i + 3])) else None
  }

  /** The traversal's acceptance test: every channel of `c` lies within
      `tolerance` of the target's. A missing (NaN) target matches nothing. */
  predicate MatchesTarget(c: Color, target: Option<Color>, tolerance: int): (ok: bool)
    ensures target.None? ==> !ok
    ensures ok ==> tolerance >= 0
    ensures target == Some(c) ==> (ok <==> tolerance >= 0)
  {
    target.Some? && Similar(c, target.value, tolerance)
  }

  /** The early exit: the seed colour is already within tolerance of the
      fill colour on all four channels. */
  predicate AlreadyFilled(target: Option<Color>, fill: Color, tolerance: int): (ok: bool)
    ensures ok ==> target.Some? && tolerance >= 0
    ensures target == Some(fill) ==> (ok <==> tolerance >= 0)
  {
    target.Some? && Similar(target.value, fill, tolerance)
  }

  /** The in-bounds pixels whose ORIGINAL colour passes the acceptance test. */
  ghost function Matching(data: seq<int>, width: nat, height: nat, target: Option<Color>, tolerance: int): (m: set<Point>)
    requires |data| == width * height * 4
    ensures forall p :: p in m <==> InBounds(p, width, height) && MatchesTarget(PixelAt(data, width, height, p), target, tolerance)
  {
    set p | p in Grid(width, height) && MatchesTarget(PixelAt(data, width, height, p), target, tolerance)
  }

  /** The pixels a fill must recolour, defined without reference to any
      traversal: nothing after an early exit, and otherwise the 4-connected
      component of the seed among the pixels that originally match the
      seed's colour. */
  ghost function FillRegion(data: seq<int>, width: nat, height: nat, seed: Point, fill: Color, tolerance: int): set<Point>
    requires |data| == width * height * 4
  {
    var target := ReadTarget(data, width, height, seed);
    if AlreadyFilled(target, fill, tolerance) then {}
    else Component(Matching(data, width, height, target, tolerance), seed)
  }

  /** `out` is `data` with exactly the fill region painted in `fill`. */
  ghost predicate IsFillOf(out: seq<int>, data: seq<int>, width: nat, height: nat, seed: Point, fill: Color, tolerance: int)
    requires |data| == width * height * 4
  {
    && |out| == |data|
    && forall p | InBounds(p, width, height) ::
         PixelAt(out, width, height, p) == if p in FillRegion(data, width, height, seed, fill, tolerance) then fill else PixelAt(data, width, height, p)
  }

  lemma SubsetSize<T>(a: set<T>, b: set<T>)
    requires a <= b
    ensures |a| <= |b|
  {
    assert b == a + (b - a);
    assert a * (b - a) == {};
  }

  /** Marking one more in-bounds pixel visited leaves fewer unvisited ones:
      the loop's termination measure. */
  lemma MarkShrinksUnvisited<T>(all: set<T>, visited: set<T>, s: T)
    requires s in all && s !in visited
    ensures |all - (visited + {s})| < |all - visited|
  {
    assert all - (visited + {s}) == (all - visited) - {s};
  }

  /** When the work stack runs empty, the painted buffer is the fill of the
      whole region and the accepted pixels enumerate it. */
  lemma FinishedFill(data: seq<int>, width: nat, height: nat, seed: Point, fill: Color, tolerance: int,
                     out: seq<int>, paths: map<Point, seq<Point>>, visited: set<Point>, expanded: seq<Point>)
    requires |data| == width * height * 4
    requires !AlreadyFilled(ReadTarget(data, width, height, seed), fill, tolerance)
    requires LoopInv(data, width, height, seed, fill, Matching(data, width, height, ReadTarget(data, width, height, seed), tolerance),
                     out, [], visited, paths, expanded)
    ensures IsFillOf(out, data, width, height, seed, fill, tolerance)
    ensures !InBounds(seed, width, height) ==> out == data
    ensures forall p :: p in expanded <==> p in FillRegion(data, width, height, seed, fill, tolerance)
    ensures |expanded| <= width * height
  {
    var candidates := Matching(data, width, height, ReadTarget(data, width, height, seed), tolerance);
    DoneIsComponent(paths, visited, candidates, seed);
    assert visited == FillRegion(data, width, height, seed, fill, tolerance);
    SubsetSize(visited, Grid(width, height));
    GridSize(width, height);
  }

  /** The fill itself, once the colour is decoded: the early exit, then the
      work-stack loop from `seed`. `expanded` lists the pixels the loop
      accepted, in order: each at most once, exactly the fill region, so at
      most `width * height`. */
  method Fill(data: seq<int>, width: nat, height: nat, seed: Point, fill: Color, tolerance: int)
    returns (out: seq<int>, ghost expanded: seq<Point>)
    requires ValidBuffer(data, width, height)
    requires ValidColor(fill)
    ensures ValidBuffer(out, width, height)
    ensures IsFillOf(out, data, width, height, seed, fill, tolerance)
    ensures !InBounds(seed, width, height) ==> out == data
    ensures AlreadyFilled(ReadTarget(data, width, height, seed), fill, tolerance) ==> out == data
    ensures forall i, j | 0 <= i < j < |expanded| :: expanded[i] != expanded[j]
    ensures forall p :: p in expanded <==> p in FillRegion(data, width, height, seed, fill, tolerance)
    ensures |expanded| <= width * height
  {
    var target := ReadTarget(data, width, height, seed);
    if AlreadyFilled(target, fill, tolerance) {
      return data, [];
    }
    ghost var candidates := Matching(data, width, height, target, tolerance);
    ghost var grid := Grid(width, height);
    var stack := [seed];
    var visited: set<Point> := {};
    out := data;
    expanded := [];
    // A walk from the seed to each visited pixel, through matching pixels.
    ghost var paths: map<Point, seq<Point>> := map[];
    StartStep(data, width, height, seed, fill, candidates);
    while |stack| > 0
      invariant LoopInv(data, width, height, seed, fill, candidates, out, stack, visited, paths, expanded)
      decreases |grid - visited|, |stack|
    {
      var s := stack[|stack| - 1];
      if InBounds(s, width, height) && s !in visited && MatchesTarget(PixelAt(out, width, height, s), target, tolerance) {
        // Accepted: paint it, mark it visited, push its four neighbours.
        paths := AcceptStep(data, width, height, seed, fill, candidates, out, stack, visited, paths, expanded);
        MarkShrinksUnvisited(grid, visited, s);
        out := SetPixel(out, width, height, s, fill);
        visited := visited + {s};
        expanded := expanded + [s];
        stack := stack[..|stack| - 1] + Neighbours(s);
      } else {
        // Out of bounds, already visited, or a boundary pixel: discarded.
        SkipStep(data, width, height, seed, fill, candidates, out, stack, visited, paths, expanded);
        stack := stack[..|stack| - 1];
      }
    }
    FinishedFill(data, width, height, seed, fill, tolerance, out, paths, visited, expanded);
  }

  /** `floodFill(canvas, x, y, fillColor, tolerance = 10)` on an explicit
      buffer: decode the fill colour, then fill from `(x, y)`. */
  method FloodFill(data: seq<int>, width: nat, height: nat, x: int, y: int, fillColor: string, tolerance: int := 10)
    returns (out: seq<int>, ghost expanded: seq<Point>)
    requires ValidBuffer(data, width, height)
    requires Decodable(fillColor)
    ensures ValidBuffer(out, width, height)
    ensures IsFillOf(out, data, width, height, (x, y), HexToRgba(fillColor), tolerance)
    ensures !InBounds((x, y), width, height) ==> out == data
    ensures AlreadyFilled(ReadTarget(data, width, height, (x, y)), HexToRgba(fillColor), tolerance) ==> out == data
    ensures forall i, j | 0 <= i < j < |expanded| :: expanded[i] != expanded[j]
    ensures forall p :: p in expanded <==> p in FillRegion(data, width, height, (x, y), HexToRgba(fillColor), tolerance)
    ensures |expanded| <= width * height
  {
    out, expanded := Fill(data, width, height, (x, y), HexToRgba(fillColor), tolerance);
  }
}

=== FILE: hex_codec.dfy ===
/** The hex colour decoder (`hexToRgba`): `#RRGGBB` or `#RRGGBBAA`, the `#`
    optional, digits in either case. The decoder also accepts strings that
    are not canonical literals (a stray `#`, extra digits), as the code does.
    An upper-case encoder is its partner on canonical literals, and the two
    round-trip lemmas tie them together. */
module HexCodec {
  import opened Colors

  predicate IsHexDigit(ch: char) {
    || ('0' <= ch <= '9')
    || ('a' <= ch <= 'f')
    || ('A' <= ch <= 'F')
  }

  /** The value of one base-16 digit, as `parseInt(_, 16)` reads it. */
  function DigitValue(ch: char): (v: nat)
    requires IsHexDigit(ch)
    ensures v < 16
    ensures v < 10 <==> '0' <= ch <= '9'
  {
    if '0' <= ch <= '9' then ch as int - '0' as int
    else if 'a' <= ch <= 'f' then ch as int - 'a' as int + 10
    else ch as int - 'A' as int + 10
  }

  /** The upper-case digit of a value below 16. */
  function HexChar(v: nat): (ch: char)
    requires v < 16
    ensures IsHexDigit(ch) && DigitValue(ch) == v
    ensures !('a' <= ch <= 'f')
  {
    if v < 10 then ('0' as int + v) as char else ('A' as int + v - 10) as char
  }

  function ToUpperDigit(ch: char): char
    requires IsHexDigit(ch)
  {
    if 'a' <= ch <= 'f' then (ch as int - 'a' as int + 'A' as int) as char else ch
  }

  function ToUpperDigits(h: string): (u: string)
    requires AllHexDigits(h)
    ensures |u| == |h|
    ensures forall i | 0 <= i < |h| :: u[i] == ToUpperDigit(h[i])
  {
    seq(|h|, i requires 0 <= i < |h| => ToUpperDigit(h[i]))
  }

  /** Two digits read back from a digit value are the upper-case form of the
      digit: decoding is injective up to letter case. */
  lemma HexCharOfDigit(ch: char)
    requires IsHexDigit(ch)
    ensures HexChar(DigitValue(ch)) == ToUpperDigit(ch)
  {
  }

  predicate AllHexDigits(h: string) {
    forall i | 0 <= i < |h| :: IsHexDigit(h[i])
  }

  /** Where the first `#` of `s` sits. */
  function FirstHash(s: string): (i: nat)
    requires '#' in s
    ensures i < |s| && s[i] == '#' && '#' !in s[..i]
  {
    if s[0] == '#' then 0
    else
      var j := FirstHash(s[1..]);
      assert s[..j + 1] == [s[0]] + s[1..][..j];
      j + 1
  }

  /** `hex.replace('#', '')`: with a string pattern, JavaScript removes only
      the FIRST occurrence of `#`, wherever it is. */
  function StripHash(s: string): (r: string)
    ensures '#' !in s ==> r == s
    ensures '#' in s ==> r == s[..FirstHash(s)] + s[FirstHash(s) + 1..]
  {
    if |s| == 0 then s
    else if s[0] == '#' then s[1..]
    else
      var rest := StripHash(s[1..]);
      assert '#' in s ==> s[..FirstHash(s)] + s[FirstHash(s) + 1..] == [s[0]] + rest by {
        if '#' in s {
          var j := FirstHash(s[1..]);
          assert s[..j + 1] == [s[0]] + s[1..][..j];
          assert s[j + 2..] == s[1..][j + 1..];
        }
      }
      [s[0]] + rest
  }

  /** The digits of a colour literal: the text after an optional leading `#`. */
  function Digits(s: string): string {
    if |s| > 0 && s[0] == '#' then s[1..] else s
  }

  /** The length JavaScript reports for a string (`hex.length`): UTF-16
      code units, one for a character of the Basic Multilingual Plane and
      two for any other. A Dafny `char` is a whole Unicode scalar value. */
  function Utf16Length(h: string): (n: nat)
    ensures |h| <= n <= 2 * |h|
  {
    if |h| == 0 then 0
    else (if h[0] as int < 0x1_0000 then 1 else 2) + Utf16Length(h[1..])
  }

  predicate AllBmp(h: string) {
    forall i | 0 <= i < |h| :: h[i] as int < 0x1_0000
  }

  /** A string is as many code units long as it has characters exactly
      when every character lies in the Basic Multilingual Plane. */
  lemma {:induction false} Utf16LengthIsCount(h: string)
    ensures Utf16Length(h) == |h| <==> AllBmp(h)
  {
    if |h| > 0 {
      Utf16LengthIsCount(h[1..]);
      assert AllBmp(h) <==> h[0] as int < 0x1_0000 && AllBmp(h[1..]) by {
        forall i | 0 < i < |h| ensures h[i] == h[1..][i - 1] { }
      }
    }
  }

  /** Lengths in code units add up over concatenation. */
  lemma {:induction false} Utf16Append(a: string, b: string)
    ensures Utf16Length(a + b) == Utf16Length(a) + Utf16Length(b)
  {
    if |a| == 0 {
      assert a + b == b;
    } else {
      assert (a + b)[1..] == a[1..] + b;
      Utf16Append(a[1..], b);
    }
  }

  /** The digit string after the first `#` holds alpha digits: it is eight
      characters long, all in the Basic Multilingual Plane. This is
      `hex.length === 8` once a seventh character outside that plane
      (`Decodable` excludes it) is set aside; `LengthTest` proves it. */
  predicate HasAlphaPair(h: string) {
    |h| == 8 && AllBmp(h[6..])
  }

  /** `hex.length === 8` in code units, on a rest that starts with six hex
      digits: either eight characters all in the Basic Multilingual Plane,
      or seven whose last lies outside it. */
  lemma LengthTest(h: string)
    requires |h| >= 6 && AllHexDigits(h[..6])
    ensures Utf16Length(h) == 8 <==> HasAlphaPair(h) || (|h| == 7 && h[6] as int >= 0x1_0000)
  {
    var head, tail := h[..6], h[6..];
    assert h == head + tail;
    Utf16Append(head, tail);
    assert AllBmp(head) by {
      forall i | 0 <= i < 6 ensures head[i] as int < 0x1_0000 {
        assert IsHexDigit(head[i]);
      }
    }
    Utf16LengthIsCount(head);
    Utf16LengthIsCount(tail);
    if |tail| == 1 {
      assert tail[1..] == [];
    }
  }

  /** A string the decoder turns into four bytes. Once the first `#` is
      removed, the first six characters must be hexadecimal digits, and so
      must the last two when the alpha pair is read. Anything else after the
      sixth character is ignored. Excluded: a seventh and last character
      outside the Basic Multilingual Plane, which the code counts as two
      code units, so it sees eight and reads a NaN alpha. */
  predicate Decodable(s: string) {
    var h := StripHash(s);
    && |h| >= 6
    && AllHexDigits(h[..6])
    && !(|h| == 7 && h[6] as int >= 0x1_0000)
    && (HasAlphaPair(h) ==> AllHexDigits(h[6..]))
  }

  /** A canonical colour literal: an optional `#` and then exactly six or
      eight hexadecimal digits. On such a literal, removing the first `#` is
      removing the optional prefix (a hex digit is never `#`), and the
      decoder reads every digit. */
  predicate WellFormedHex(s: string): (ok: bool)
    ensures ok ==> StripHash(s) == Digits(s) && Decodable(s)
    ensures ok ==> (HasAlphaPair(Digits(s)) <==> |Digits(s)| == 8)
  {
    var d := Digits(s);
    var canonical := (|d| == 6 || |d| == 8) && AllHexDigits(d);
    assert canonical ==> StripHash(s) == d && Decodable(s) && (HasAlphaPair(d) <==> |d| == 8) by {
      if canonical {
        assert AllBmp(d[6..]) by {
          forall i | 6 <= i < |d| ensures d[i] as int < 0x1_0000 {
            assert IsHexDigit(d[i]);
          }
        }
        if !(|s| > 0 && s[0] == '#') {
          assert forall i | 0 <= i < |s| :: IsHexDigit(s[i]);
          assert '#' !in s;
        }
      }
    }
    canonical
  }

  /** The byte spelled by the digit pair at `i`, `i + 1`. */
  function PairValue(h: string, i: nat): (v: int)
    requires i + 1 < |h| && IsHexDigit(h[i]) && IsHexDigit(h[i + 1])
    ensures IsByte(v)
  {
    16 * DigitValue(h[i]) + DigitValue(h[i + 1])
  }

  /** `hexToRgba`: R, G and B from the first three digit pairs; alpha from the
      fourth pair when what remains after the first `#` is removed is eight
      UTF-16 code units long, and fully opaque otherwise (`AlphaFromLength`
      states it in code units). Alpha is kept as the byte the canvas stores,
      not as a fraction. */
  function HexToRgba(s: string): (c: Color)
    requires Decodable(s)
    ensures ValidColor(c)
    ensures |StripHash(s)| != 8 ==> c.a == 255
  {
    var h := StripHash(s);
    assert forall i | 0 <= i < 6 :: h[i] == h[..6][i];
    assert |h| == 8 ==> h[6] == h[6..][0] && h[7] == h[6..][1];
    Color(
      PairValue(h, 0),
      PairValue(h, 2),
      PairValue(h, 4),
      if HasAlphaPair(h) then PairValue(h, 6) else 255)
  }

  /** Alpha is read exactly when the code's length test `hex.length === 8`,
      counted in UTF-16 code units, holds; otherwise the colour is opaque. */
  lemma AlphaFromLength(s: string)
    requires Decodable(s)
    ensures Utf16Length(StripHash(s)) != 8 ==> HexToRgba(s).a == 255
    ensures Utf16Length(StripHash(s)) == 8 ==>
              && |StripHash(s)| == 8 && IsHexDigit(StripHash(s)[6]) && IsHexDigit(StripHash(s)[7])
              && HexToRgba(s).a == PairValue(StripHash(s), 6)
  {
    var h := StripHash(s);
    LengthTest(h);
    assert |h| == 8 ==> h[6] == h[6..][0] && h[7] == h[6..][1];
  }

  /** The two upper-case digits of a byte. */
  function ByteToHex(v: int): (h: string)
    requires IsByte(v)
    ensures |h| == 2 && AllHexDigits(h)
    ensures PairValue(h, 0) == v
  {
    [HexChar(v / 16), HexChar(v % 16)]
  }

  /** The partner of the decoder: `#RRGGBB`, or `#RRGGBBAA` when the alpha
      pair is wanted. */
  function RgbaToHex(c: Color, withAlpha: bool): (s: string)
    requires ValidColor(c)
    ensures WellFormedHex(s)
    ensures |Digits(s)| == if withAlpha then 8 else 6
  {
    var h := ByteToHex(c.r) + ByteToHex(c.g) + ByteToHex(c.b) + (if withAlpha then ByteToHex(c.a) else "");
    assert forall i | 0 <= i < |h| :: IsHexDigit(h[i]);
    "#" + h
  }

  /** Decoding an encoded colour gives the colour back. Without the alpha pair
      only opaque colours survive, since six digits always decode as opaque. */
  lemma DecodeEncode(c: Color, withAlpha: bool)
    requires ValidColor(c)
    requires withAlpha || c.a == 255
    ensures HexToRgba(RgbaToHex(c, withAlpha)) == c
  {
    var s := RgbaToHex(c, withAlpha);
    var alpha := if withAlpha then ByteToHex(c.a) else "";
    var h := ByteToHex(c.r) + ByteToHex(c.g) + ByteToHex(c.b) + alpha;
    assert Digits(s) == h;
    assert h[0..2] == ByteToHex(c.r);
    assert h[2..4] == ByteToHex(c.g);
    assert h[4..6] == ByteToHex(c.b);
    assert h[6..] == alpha;
    assert PairValue(h, 0) == PairValue(ByteToHex(c.r), 0);
    assert PairValue(h, 2) == PairValue(ByteToHex(c.g), 0);
    assert PairValue(h, 4) == PairValue(ByteToHex(c.b), 0);
    if withAlpha {
      assert PairValue(h, 6) == PairValue(ByteToHex(c.a), 0);
    }
  }

  /** A digit pair re-encoded from its value is the pair in upper case. */
  lemma PairRoundTrip(h: string, i: nat)
    requires i + 1 < |h| && IsHexDigit(h[i]) && IsHexDigit(h[i + 1])
    ensures ByteToHex(PairValue(h, i)) == [ToUpperDigit(h[i]), ToUpperDigit(h[i + 1])]
  {
    var v := PairValue(h, i);
    assert v / 16 == DigitValue(h[i]) && v % 16 == DigitValue(h[i + 1]);
    HexCharOfDigit(h[i]);
    HexCharOfDigit(h[i + 1]);
  }

  /** The same, read off the upper-cased literal. */
  lemma PairOfUpper(h: string, i: nat)
    requires AllHexDigits(h) && i + 1 < |h|
    ensures ByteToHex(PairValue(h, i)) == ToUpperDigits(h)[i..i + 2]
  {
    PairRoundTrip(h, i);
    var u := ToUpperDigits(h);
    assert u[i..i + 2] == [u[i], u[i + 1]];
  }

  /** Re-encoding every digit pair of a digit string spells the string in
      upper case. */
  lemma EncodePairs(h: string)
    requires AllHexDigits(h) && (|h| == 6 || |h| == 8)
    ensures ByteToHex(PairValue(h, 0)) + ByteToHex(PairValue(h, 2)) + ByteToHex(PairValue(h, 4))
            + (if |h| == 8 then ByteToHex(PairValue(h, 6)) else "") == ToUpperDigits(h)
  {
    var u := ToUpperDigits(h);
    PairOfUpper(h, 0);
    PairOfUpper(h, 2);
    PairOfUpper(h, 4);
    if |h| == 8 {
      PairOfUpper(h, 6);
      assert u == u[0..2] + u[2..4] + u[4..6] + u[6..8];
    } else {
      assert u == u[0..2] + u[2..4] + u[4..6];
    }
  }

  /** Encoding a decoded literal gives the literal back, normalised to a
      leading `#` and upper-case digits, and keeping its digit count: every
      digit of the input is accounted for by the decoded colour. */
  lemma EncodeDecode(s: string)
    requires WellFormedHex(s)
    ensures RgbaToHex(HexToRgba(s), |Digits(s)| == 8) == "#" + ToUpperDigits(Digits(s))
  {
    var h := Digits(s);
    EncodePairs(h);
  }

  /** The leading `#` is optional: a literal decodes the same with or without it. */
  lemma HashIsOptional(h: string)
    requires WellFormedHex(h) && (|h| == 0 || h[0] != '#')
    ensures WellFormedHex("#" + h)
    ensures HexToRgba("#" + h) == HexToRgba(h)
  {
    assert Digits("#" + h) == h;
  }

  /** Without the alpha pair a string decodes like its first six digits. */
  lemma NoAlphaPairReadsSix(s: string)
    requires Decodable(s) && !HasAlphaPair(StripHash(s))
    ensures WellFormedHex(StripHash(s)[..6])
    ensures HexToRgba(s) == HexToRgba(StripHash(s)[..6])
  {
    var t := StripHash(s)[..6];
    assert Digits(t) == t;
  }

  /** Only the first three digit pairs are read unless exactly eight UTF-16
      code units remain: a seventh digit, or a ninth and beyond, changes
      nothing. */
  lemma OnlyLeadingPairsRead(s: string)
    requires Decodable(s) && Utf16Length(StripHash(s)) != 8
    ensures WellFormedHex(StripHash(s)[..6])
    ensures HexToRgba(s) == HexToRgba(StripHash(s)[..6])
  {
    LengthTest(StripHash(s));
    NoAlphaPairReadsSix(s);
  }

  /** The default colour of the host's palette decodes to (211, 47, 47, 255),
      with and without its `#`. */
  lemma DefaultColorExample()
    ensures WellFormedHex("#D32F2F") && HexToRgba("#D32F2F") == Color(211, 47, 47, 255)
    ensures WellFormedHex("D32F2F") && HexToRgba("D32F2F") == Color(211, 47, 47, 255)
  {
    var red := "D32F2F";
    assert IsHexDigit(red[0]) && IsHexDigit(red[1]) && IsHexDigit(red[2]);
    assert IsHexDigit(red[3]) && IsHexDigit(red[4]) && IsHexDigit(red[5]);
    assert AllHexDigits(red);
    assert DigitValue(red[0]) == 13 && DigitValue(red[1]) == 3;
    assert DigitValue(red[2]) == 2 && DigitValue(red[3]) == 15;
    assert DigitValue(red[4]) == 2 && DigitValue(red[5]) == 15;
    HashIsOptional(red);
  }

  /** An eight-digit literal carries its alpha in the fourth pair. */
  lemma TranslucentExample()
    ensures WellFormedHex("#00796B80") && HexToRgba("#00796B80") == Color(0, 121, 107, 128)
  {
    var teal := "#00796B80";
    var d := "00796B80";
    assert Digits(teal) == d;
    assert IsHexDigit(d[0]) && IsHexDigit(d[1]) && IsHexDigit(d[2]) && IsHexDigit(d[3]);
    assert IsHexDigit(d[4]) && IsHexDigit(d[5]) && IsHexDigit(d[6]) && IsHexDigit(d[7]);
    assert AllHexDigits(d);
    assert WellFormedHex(teal);
    assert DigitValue(d[0]) == 0 && DigitValue(d[1]) == 0;
    assert DigitValue(d[2]) == 7 && DigitValue(d[3]) == 9;
    assert DigitValue(d[4]) == 6 && DigitValue(d[5]) == 11;
    assert DigitValue(d[6]) == 8 && DigitValue(d[7]) == 0;
  }

  /** The canonical default colour: six hexadecimal digits, no `#`. */
  lemma DefaultDigits()
    ensures WellFormedHex("D32F2F")
    ensures HexToRgba("D32F2F") == Color(211, 47, 47, 255)
  {
    var red := "D32F2F";
    assert IsHexDigit(red[0]) && IsHexDigit(red[1]) && IsHexDigit(red[2]);
    assert IsHexDigit(red[3]) && IsHexDigit(red[4]) && IsHexDigit(red[5]);
    assert Digits(red) == red && AllHexDigits(red);
    DefaultColorExample();
  }

  /** A `#` in the middle of the string is removed like a leading one. */
  lemma StrayHashExample()
    ensures Decodable("D3#2F2F") && HexToRgba("D3#2F2F") == Color(211, 47, 47, 255)
  {
    var stray := "D3#2F2F";
    assert stray[2] == '#';
    assert FirstHash(stray) == 2 by {
      assert stray[0] != '#' && stray[1] != '#';
    }
    assert stray[..2] + stray[3..] == "D32F2F";
    assert StripHash(stray) == "D32F2F";
    DefaultDigits();
    NoAlphaPairReadsSix(stray);
  }

  /** A seventh digit is ignored: only exactly eight digits carry alpha. */
  lemma ExtraDigitExample()
    ensures Decodable("D32F2F0") && HexToRgba("D32F2F0") == Color(211, 47, 47, 255)
  {
    var long := "D32F2F0";
    assert forall i | 0 <= i < |long| :: long[i] != '#';
    assert StripHash(long) == long;
    assert long[..6] == "D32F2F";
    DefaultDigits();
    NoAlphaPairReadsSix(long);
  }

  /** A seventh character outside the Basic Multilingual Plane is two UTF-16
      code units, so the code would see eight units and read a NaN alpha:
      such a string is outside `Decodable`. */
  lemma SupplementarySeventhExcluded()
    ensures !Decodable("D32F2F\U{1F600}")
  {
    var digits := "D32F2F";
    var s := digits + "\U{1F600}";
    assert forall i | 0 <= i < |s| :: s[i] != '#';
    assert StripHash(s) == s;
    assert AllBmp(digits);
    Utf16LengthIsCount(digits);
    Utf16Append(digits, "\U{1F600}");
    assert Utf16Length(s) == 8 && |s| == 7;
  }

  /** Eight characters with one outside the Basic Multilingual Plane are
      nine UTF-16 code units, so the code's length test fails. */
  lemma SupplementaryAfterSixLength()
    ensures Utf16Length("D32F2F0\U{1F600}") == 9
  {
    var digits := "D32F2F0";
    assert AllBmp(digits);
    Utf16LengthIsCount(digits);
    Utf16Append(digits, "\U{1F600}");
  }

  /** Such a string decodes opaque from its first six digits. */
  lemma SupplementaryAfterSixExample()
    ensures Decodable("D32F2F0\U{1F600}") && HexToRgba("D32F2F0\U{1F600}") == Color(211, 47, 47, 255)
  {
    var s := "D32F2F0\U{1F600}";
    assert forall i | 0 <= i < |s| :: s[i] != '#';
    assert StripHash(s) == s;
    assert s[..6] == "D32F2F";
    assert !AllBmp(s[6..]) by {
      assert s[6..][1] as int == 0x1F600;
    }
    DefaultDigits();
    NoAlphaPairReadsSix(s);
  }
}

=== FILE: traversal.dfy ===
/** The invariants of the flood fill's work-stack loop, and how one pop keeps
    each of them. `candidates` is the set of in-bounds pixels whose original
    colour passes the acceptance test; `visited` is the traversal's visited
    set (every accepted pixel, and only those). */
module Traversal {
  import opened Colors
  import opened Buffer
  import opened Connectivity

  /** The buffer shows the fill colour on the visited pixels and the original
      colour everywhere else. */
  ghost predicate PaintedAs(out: seq<int>, data: seq<int>, width: nat, height: nat, visited: set<Point>, fill: Color)
    requires |data| == width * height * 4
  {
    && |out| == |data|
    && forall p | InBounds(p, width, height) ::
         PixelAt(out, width, height, p) == if p in visited then fill else PixelAt(data, width, height, p)
  }

  /** Every visited pixel is reached from the seed by a recorded walk through
      candidate pixels. */
  ghost predicate WalksFromSeed(paths: map<Point, seq<Point>>, visited: set<Point>, candidates: set<Point>, seed: Point) {
    && paths.Keys == visited
    && forall v | v in visited ::
         IsPathIn(paths[v], candidates) && paths[v][0] == seed && paths[v][|paths[v]| - 1] == v
  }

  /** Every stacked coordinate is the seed or a neighbour of a visited pixel. */
  ghost predicate StackFromVisited(stack: seq<Point>, visited: set<Point>, seed: Point) {
    forall i | 0 <= i < |stack| :: stack[i] == seed || exists v :: v in visited && Adjacent(v, stack[i])
  }

  /** Nothing that still belongs to the region is forgotten: the seed and
      every candidate neighbour of a visited pixel is visited or still on
      the stack. */
  ghost predicate Frontier(stack: seq<Point>, visited: set<Point>, candidates: set<Point>, seed: Point) {
    && (seed in stack || seed in visited || seed !in candidates)
    && forall v, n | v in visited && n in candidates && Adjacent(v, n) :: n in stack || n in visited
  }

  /** `expanded` lists the visited set without repetition. */
  ghost predicate Enumerates(expanded: seq<Point>, visited: set<Point>) {
    && (forall p :: p in expanded <==> p in visited)
    && (forall i, j | 0 <= i < j < |expanded| :: expanded[i] != expanded[j])
    && |expanded| == |visited|
  }

  lemma AcceptPaints(out: seq<int>, data: seq<int>, width: nat, height: nat, visited: set<Point>, fill: Color, s: Point)
    requires |data| == width * height * 4
    requires PaintedAs(out, data, width, height, visited, fill)
    requires InBounds(s, width, height)
    ensures PaintedAs(SetPixel(out, width, height, s, fill), data, width, height, visited + {s}, fill)
  {
  }

  /** Accepting a candidate pixel that is the seed or next to a visited
      pixel extends the recorded walks by one. */
  lemma AcceptWalks(paths: map<Point, seq<Point>>, visited: set<Point>, candidates: set<Point>, seed: Point, s: Point)
    returns (paths': map<Point, seq<Point>>)
    requires WalksFromSeed(paths, visited, candidates, seed)
    requires s in candidates
    requires s == seed || exists v :: v in visited && Adjacent(v, s)
    ensures WalksFromSeed(paths', visited + {s}, candidates, seed)
  {
    var path := [seed];
    if s != seed {
      var v :| v in visited && Adjacent(v, s);
      ExtendPath(paths[v], candidates, s);
      path := paths[v] + [s];
    }
    paths' := paths[s := path];
  }

  lemma PopKeepsStack(stack: seq<Point>, visited: set<Point>, seed: Point)
    requires |stack| > 0 && StackFromVisited(stack, visited, seed)
    ensures StackFromVisited(stack[..|stack| - 1], visited, seed)
  {
    var rest := stack[..|stack| - 1];
    forall i | 0 <= i < |rest|
      ensures rest[i] == seed || exists v :: v in visited && Adjacent(v, rest[i])
    {
      assert rest[i] == stack[i];
    }
  }

  /** Pushing the four neighbours of a newly visited pixel keeps every
      stacked coordinate next to the visited set. */
  lemma AcceptKeepsStack(stack: seq<Point>, visited: set<Point>, seed: Point, s: Point)
    requires StackFromVisited(stack, visited, seed)
    ensures StackFromVisited(stack + Neighbours(s), visited + {s}, seed)
  {
    var next := stack + Neighbours(s);
    forall i | 0 <= i < |next|
      ensures next[i] == seed || exists v :: v in visited + {s} && Adjacent(v, next[i])
    {
      if i < |stack| {
        assert next[i] == stack[i];
        if next[i] != seed {
          var v :| v in visited && Adjacent(v, stack[i]);
          assert v in visited + {s};
        }
      } else {
        assert next[i] in Neighbours(s);
        assert Adjacent(s, next[i]);
      }
    }
  }

  /** Discarding a popped coordinate that is visited or not a candidate
      loses nothing of the frontier. */
  lemma SkipKeepsFrontier(stack: seq<Point>, visited: set<Point>, candidates: set<Point>, seed: Point)
    requires |stack| > 0 && Frontier(stack, visited, candidates, seed)
    requires stack[|stack| - 1] in visited || stack[|stack| - 1] !in candidates
    ensures Frontier(stack[..|stack| - 1], visited, candidates, seed)
  {
    var s := stack[|stack| - 1];
    var rest := stack[..|stack| - 1];
    assert stack == rest + [s];
    forall v, n | v in visited && n in candidates && Adjacent(v, n)
      ensures n in rest || n in visited
    {
      if n !in visited {
        assert n in stack && n != s;
      }
    }
  }

  /** Visiting the popped coordinate and pushing its neighbours keeps the
      frontier: the new pixel's candidate neighbours are all on the stack. */
  lemma AcceptKeepsFrontier(stack: seq<Point>, visited: set<Point>, candidates: set<Point>, seed: Point)
    requires |stack| > 0 && Frontier(stack, visited, candidates, seed)
    ensures Frontier(stack[..|stack| - 1] + Neighbours(stack[|stack| - 1]), visited + {stack[|stack| - 1]}, candidates, seed)
  {
    var s := stack[|stack| - 1];
    var rest := stack[..|stack| - 1];
    var next := rest + Neighbours(s);
    assert stack == rest + [s];
    forall v, n | v in visited + {s} && n in candidates && Adjacent(v, n)
      ensures n in next || n in visited + {s}
    {
      if v == s {
        assert n in Neighbours(s);
      } else if n !in visited && n != s {
        assert n in rest;
      }
    }
  }

  lemma AcceptEnumerates(expanded: seq<Point>, visited: set<Point>, s: Point)
    requires Enumerates(expanded, visited) && s !in visited
    ensures Enumerates(expanded + [s], visited + {s})
  {
  }

  /** All the loop invariants together. */
  ghost predicate LoopInv(data: seq<int>, width: nat, height: nat, seed: Point, fill: Color, candidates: set<Point>,
                          out: seq<int>, stack: seq<Point>, visited: set<Point>,
                          paths: map<Point, seq<Point>>, expanded: seq<Point>)
    requires |data| == width * height * 4
  {
    && (ValidBuffer(data, width, height) && ValidColor(fill) ==> ValidBuffer(out, width, height))
    && visited <= candidates
    && PaintedAs(out, data, width, height, visited, fill)
    && (visited == {} ==> out == data)
    && WalksFromSeed(paths, visited, candidates, seed)
    && StackFromVisited(stack, visited, seed)
    && Frontier(stack, visited, candidates, seed)
    && Enumerates(expanded, visited)
  }

  /** Before the first pop: the buffer is untouched, nothing is visited, and
      only the seed is on the stack. */
  lemma StartStep(data: seq<int>, width: nat, height: nat, seed: Point, fill: Color, candidates: set<Point>)
    requires |data| == width * height * 4
    ensures LoopInv(data, width, height, seed, fill, candidates, data, [seed], {}, map[], [])
  {
  }

  /** Accepting the popped coordinate (in bounds, not yet visited, a
      candidate): paint it, mark it visited, push its four neighbours. */
  lemma AcceptStep(data: seq<int>, width: nat, height: nat, seed: Point, fill: Color, candidates: set<Point>,
                   out: seq<int>, stack: seq<Point>, visited: set<Point>,
                   paths: map<Point, seq<Point>>, expanded: seq<Point>)
    returns (paths': map<Point, seq<Point>>)
    requires |data| == width * height * 4
    requires LoopInv(data, width, height, seed, fill, candidates, out, stack, visited, paths, expanded)
    requires |stack| > 0
    requires InBounds(stack[|stack| - 1], width, height)
    requires stack[|stack| - 1] !in visited && stack[|stack| - 1] in candidates
    ensures var s := stack[|stack| - 1];
            LoopInv(data, width, height, seed, fill, candidates,
                    SetPixel(out, width, height, s, fill), stack[..|stack| - 1] + Neighbours(s), visited + {s},
                    paths', expanded + [s])
  {
    var s := stack[|stack| - 1];
    PopKeepsStack(stack, visited, seed);
    AcceptKeepsStack(stack[..|stack| - 1], visited, seed, s);
    AcceptKeepsFrontier(stack, visited, candidates, seed);
    paths' := AcceptWalks(paths, visited, candidates, seed, s);
    AcceptPaints(out, data, width, height, visited, fill, s);
    AcceptEnumerates(expanded, visited, s);
  }

  /** Discarding the popped coordinate (out of bounds, visited, or not a
      candidate) changes nothing else. */
  lemma SkipStep(data: seq<int>, width: nat, height: nat, seed: Point, fill: Color, candidates: set<Point>,
                 out: seq<int>, stack: seq<Point>, visited: set<Point>,
                 paths: map<Point, seq<Point>>, expanded: seq<Point>)
    requires |data| == width * height * 4
    requires LoopInv(data, width, height, seed, fill, candidates, out, stack, visited, paths, expanded)
    requires |stack| > 0
    requires stack[|stack| - 1] in visited || stack[|stack| - 1] !in candidates
    ensures LoopInv(data, width, height, seed, fill, candidates, out, stack[..|stack| - 1], visited, paths, expanded)
  {
    PopKeepsStack(stack, visited, seed);
    SkipKeepsFrontier(stack, visited, candidates, seed);
  }

  /** When the stack is empty, the visited set is exactly the component of
      the seed among the candidates. */
  lemma DoneIsComponent(paths: map<Point, seq<Point>>, visited: set<Point>, candidates: set<Point>, seed: Point)
    requires WalksFromSeed(paths, visited, candidates, seed)
    requires Frontier([], visited, candidates, seed)
    requires visited <= candidates
    ensures visited == Component(candidates, seed)
  {
    ComponentInClosed(candidates, seed, visited);
    forall v | v in visited
      ensures v in Component(candidates, seed)
    {
      assert IsPathIn(paths[v], candidates) && paths[v][0] == seed && paths[v][|paths[v]| - 1] == v;
    }
  }
}
